=== FILE: README.md ===
# Procurement-request step workflow

A Dafny model of the procurement-request (PR) tracker's core: the fixed
step template a new request starts from, the step update that enforces
completion in list order and derives the request status, and the create,
edit and delete operations on the collection of requests keyed by business
id, with the activity log they append to.

Layout, one module per file:

- `outcomes.dfy` (`Outcomes`): `Option`, `Patch` (a field guarded by
  `!== undefined`), the error kinds and `Result`.
- `schema.dfy` (`Schema`): the status, priority and category enums with their
  stored names, `Step`, `PR`, the pre-save `Draft`, and `Validate`, the
  required-field and enum validation the document store runs on save.
- `template.dfy` (`Template`): the twelve-step template.
- `workflow.dfy` (`Workflow`): step lookup, the order rule, the partial step
  update, status derivation and the audit condition, on one loaded request.
- `store.dfy` (`Store`): the request map and activity log, and the four
  request-level operations, each returning the next state and a result.
- `scenarios.dfy` (`Scenarios`): completing every step in order, and
  runs on a request fresh from the template or on a created "PR-100".

Modelling choices:

- A request body field that the controller checks for truthiness is an
  `Option<string>` in which `Some("")` counts as absent (`Truthy`).
- A field of the edit request compared with `!== undefined` is a `Patch`,
  because it may be set to `null`. The step update's `completed` and
  `comment`, also compared with `!== undefined`, are `Option`s: `None` is
  only the omitted field, and an explicit `null` is not modelled there.
- The step id in the path is an `Option<int>`: `None` stands for a segment
  that `parseInt` turns into `NaN`, which matches no step.
- The current time is a parameter `now` of the step update.
- The store validates every document on save. The model therefore rejects a
  save that breaks an enum or leaves a required field empty with
  `ValidationFailed`. The controller reports that as a server error.
- The stored `comment` of a template step is `""`, the schema default. The
  template itself gives no comment.
- The step update can be built with the audit condition as written or as
  intended (`AuditRule`). `UpdatePRStep` is the controller as written.

Facts about the code that a reader might expect otherwise:

- The template has 12 steps with ids 1 to 12.
- A step update that omits `completed` clears `completedAt`, even on a
  completed step.
- The order rule checks the list positions before the target (`slice`), not step ids.
- The only audit entry of a step update is "Completed Step", and as written
  it never fires for a boolean `completed` (non-boolean values that the
  store casts to `true` are out of the model; see the casting line under
  "## Left out"). There is no "Reopened Step" entry.
- Stored step lists are never reconciled with the current template.
- Nothing keeps `status` in line with the steps outside the step update: an
  edit may set it directly.

## Model

| member | source | states |
|---|---|---|
| Template.InitialSteps | controllers/prController.js:5-18 | the template has exactly 12 steps with ids 1..12 in position order. Each is incomplete, with no completion time, non-empty required fields and the schema's default empty comment |
| Schema.ParseStatus | models/Procurement.js:46-50 | the status enum accepts exactly `in-progress` and `completed`, and each accepted name maps back to itself |
| Schema.ParsePriority | models/Procurement.js:51-55 | the priority enum accepts exactly `low`, `medium` and `high`, and each accepted name maps back to itself |
| Schema.ParseCategory | models/Procurement.js:56-60 | the category enum accepts exactly its nine names, and each accepted name maps back to itself |
| Schema.OfficeIsNotACategory | controllers/prController.js:119 | the create fallback `'Office'` is not a member of the category enum |
| Schema.Validate | models/Procurement.js:3-69 | a save succeeds iff PR id, title and every step's name and description are non-empty and status, priority and category are enum names. What is stored reads back as the saved draft. A failed save is a validation error |
| Schema.ValidateToDraft | models/Procurement.js:30-69 | a stored request with its required fields present is saved again unchanged |
| Workflow.FindStepIndex | controllers/prController.js:211-218 | the result is the first position whose step has the requested id. It is absent only when no step has that id |
| Workflow.AllCompleted | controllers/prController.js:223-239 | holds iff every step in the list is completed |
| Workflow.ApplyStepUpdate | controllers/prController.js:211-244 | an unknown step id gives StepNotFound. Completing a step with an incomplete step before it gives OrderViolation. Without `completed=true` no order check fails. On success the other steps and fields are unchanged, omitted `completed`/`comment` keep their values, `completedAt` is set iff `completed` is true, and the status is `completed` iff every step is completed |
| Workflow.CompletedEventIsDead | controllers/prController.js:249-255 | after any successful step update the "Completed Step" condition as written is false |
| Workflow.IntendedEventIffNewlyCompleted | controllers/prController.js:248-255 | the intended audit condition holds iff the call turns an incomplete step into a completed one |
| Workflow.CompletionKeepsPrefix | controllers/prController.js:221-236 | completing a step, or a comment-only update, keeps the completed steps a prefix of the list |
| Workflow.UpdateKeepsTimestampsConsistent | controllers/prController.js:234-236 | after a successful step update, no incomplete step carries a completion time |
| Workflow.StepUpdateIdempotent | controllers/prController.js:211-244 | repeating a successful step update at the same time returns the same request. A repeated completion passes the order rule again |
| Workflow.IntendedEventNotRepeated | controllers/prController.js:248-255 | under the intended audit condition, completing an already completed step records no second entry |
| Workflow.CompleteNext | controllers/prController.js:220-244 | when exactly the first k steps are completed, completing step k+1 succeeds and exactly the first k+1 are completed |
| Store.Insert | controllers/prController.js:100-131 | a taken id gives DuplicateId and leaves the state unchanged. Otherwise the create succeeds iff validation accepts the new document, and a rejected save gives ValidationFailed with the state unchanged. On success exactly one request is added: status `in-progress`, the initial steps, priority defaulting to `medium`, and one "Created PR" entry for the id appended. Store consistency and status agreement are preserved |
| Store.CreatePR | controllers/prController.js:114-124 | as written, a create without a category always fails, with ValidationFailed when the id is new, and leaves the state unchanged. It succeeds iff the id is new and non-empty, the title is given, the priority is absent or valid and the category is given and valid |
| Store.CreatePRIntended | controllers/prController.js:119 | with the schema default category, a create without a category succeeds with category `Others` |
| Store.UpdatePR | controllers/prController.js:150-178 | an unknown id gives PRNotFound; any other failure is ValidationFailed. Only the supplied fields change: title, priority, category and status when truthy; description and due date when present. Steps, id and assignee are kept. The status is taken as given. One "Updated PR" entry for the id is appended. A failed save leaves the state unchanged |
| Store.UpdateStepWith | controllers/prController.js:197-255 | an unknown request id gives PRNotFound. Otherwise the result is the step update on the stored request, and only that request is replaced. The log only grows. Store consistency and status agreement are preserved |
| Store.UpdatePRStep | controllers/prController.js:246-255 | as written, a step update never extends the activity log |
| Store.UpdatePRStepIntended | controllers/prController.js:248-255 | with the intended audit condition, a successful step update appends exactly the "Completed Step" entry naming the request and step iff it completes a previously incomplete step, and leaves the log unchanged otherwise |
| Store.DeletePR | controllers/prController.js:274-290 | an unknown id gives PRNotFound and leaves the state unchanged. Otherwise exactly that request is removed, all others are kept and one "Deleted PR" entry naming it is appended |
| Scenarios.CompleteInOrderFinishes | controllers/prController.js:220-255 | completing the remaining steps of a template-shaped request in order, whatever status an edit left on it when a step remains, always succeeds and ends with status `completed`. As written the log gains nothing; under the intended rule it gains one entry per step |
| Scenarios.CreateThenDuplicate | controllers/prController.js:104-124 | creating "PR-100" gives 12 steps, status `in-progress` and priority `medium`. Creating it again gives DuplicateId with the state unchanged |
| Scenarios.CreateWithoutCategory | controllers/prController.js:119 | without a category the create fails with a validation error as written, and succeeds with `Others` under the intended default |
| Scenarios.FirstStepThenOutOfOrder | controllers/prController.js:221-244 | on a request fresh from the template, completing step 1 succeeds with status `in-progress`. Then completing step 3 while step 2 is open gives OrderViolation with the state unchanged |
| Scenarios.AllStepsInOrder | controllers/prController.js:239-255 | on a request fresh from the template, completing all 12 steps in order yields status `completed`. As written no log entry is added; under the intended rule 12 are added |
| Scenarios.ReopenEarlierStep | controllers/prController.js:221-236 | on a request with the template steps, reopening step 1 after completing steps 1 and 2 succeeds and leaves step 2 completed, so the completed steps stop being a prefix |
| Scenarios.CommentOnlyClearsCompletionTime | controllers/prController.js:234-236 | on a request fresh from the template, a comment-only update of a completed step keeps it completed but clears its completion time |
| Scenarios.EditCanDesyncStatus | controllers/prController.js:169 | an edit that sets status `completed` on a request with open steps succeeds and leaves the status disagreeing with the steps |
| Scenarios.DeleteTwice | controllers/prController.js:276-283 | deleting "PR-100" removes it. Deleting it again gives PRNotFound |

## Left out

- HTTP routing, request parsing, the response envelope and status codes (`server.js`, the route files): errors are an `Error` kind, not a status code.
- Listing with filters, search and sorting, and the statistics aggregate (`getAllPRs`, `getPRStats`): they are store queries; the search needs a regular-expression engine.
- The schema defaults of `status`, `priority` and `category` when a stored document lacks the field: the create writes all three, so no stored document lacks them, and only the defaults the code itself applies are modelled (`medium` priority and, in the corrected create, `Others` category).
- Store.UpdateStepWith: the save after a step update is not re-validated, because stored requests are valid by construction (`Consistent`) and the update writes no required field and writes `status` only as an enum name (`in-progress` or `completed`); a stored request with an empty title, which the source would fail to save, is not modelled.
- Fetching one request by id (`getPRById`): a plain map lookup with no workflow logic.
- The activity controller and activity schema beyond the entries the four operations append: listing, manual entries and age-based cleanup are store queries over wall-clock time. An entry's own timestamp is not modelled.
- The database connection (`config/db.js`).
- The `trim` setters on id, title and description: no string normalisation is modelled, so a title of only blanks counts as present.
- The `createdAt`/`updatedAt` timestamps the schema adds: they need a clock and no operation reads them.
- Workflow.ApplyStepUpdate: a step update with `comment: null` is not modelled; the source overwrites the comment with `null`, while the stored comment here is always a string, so such a body cannot be expressed.
- Casting of request values: `completed` is a boolean or absent (a `null`, or a value such as `1` or `"true"` that the store casts to `true`, is not modelled; for the latter the "Completed Step" condition at controllers/prController.js:249 compares the raw value with the cast boolean and does fire), a due date is already a timestamp, and the step id is already parsed.
- A create without an `id` at all, where the duplicate check would query with an undefined filter: the id is a string here, possibly empty.
- A store failure other than validation (lost connection, write error).
- Concurrency: two creates with the same id, or two step updates on one request, can race in the source; the model is sequential.
- Reconciling stored step lists of an older template shape: the source has no such code.

## Findings

| source | as written | input that shows it | evidently intended | confidence | as-written member | corrected member |
|---|---|---|---|---|---|---|
| controllers/prController.js:249 | the "Completed Step" condition compares `completed` with the step after line 234 already set it to `completed`, so it is false for every boolean request | completing step 1 of a new request: the step becomes completed and no activity entry is written | record the entry when the request completes a step that was incomplete before the call | high; not executed | Store.UpdatePRStep | Store.UpdatePRStepIntended |
| controllers/prController.js:119 | a create without a category falls back to `'Office'`, which is not in the category enum, so validation rejects the save | a create of "PR-100" with a title and no category | fall back to the schema default `'Others'` | medium (relies on the store validating enums on create); not executed | Store.CreatePR | Store.CreatePRIntended |

=== FILE: outcomes.dfy ===
/**
  Failure-carrying values shared by every module: optional values, partial
  updates, the error kinds a controller answers with, and results.
 */
module Outcomes {

  /** A value that may be absent. In a request body `None` is the omitted
      field; whether a `null` is folded into it depends on the field, and the
      step update's fields admit no `null` at all. */
  datatype Option<+T> = None | Some(value: T) {

    /** The value when present, `default` otherwise. */
    function GetOr(default: T): T {
      match this
      case Some(v) => v
      case None => default
    }
  }

  /** A field of a partial update guarded by `!== undefined`: left alone, or
      overwritten with the supplied value (which may itself be `null`). */
  datatype Patch<+T> = Keep | Put(value: T)

  /** The error kinds a procurement-request operation reports.
      ValidationFailed is the document validation on save (a missing required
      field or a value outside an enum), which the controller reports as a
      server error. */
  datatype Error =
    | PRNotFound
    | StepNotFound
    | DuplicateId
    | OrderViolation
    | ValidationFailed

  datatype Result<+T> = Ok(value: T) | Err(error: Error)
}

=== FILE: scenarios.dfy ===
/**
  Whole-workflow behaviour of the request-level operations: completing every
  step in order, and short runs that show how the operations behave on a
  request fresh from the template, such as "PR-100" just after its create.
 */
module Scenarios {
  import opened Outcomes
  import opened Schema
  import opened Template
  import opened Workflow
  import opened Store

  /** One step update under the given audit rule. */
  function StepCall(st: State, id: string, stepId: Option<int>, req: StepRequest, now: Timestamp, rule: AuditRule): Reply<PR> {
    match rule
    case AsWritten => UpdatePRStep(st, id, stepId, req, now)
    case Intended => UpdatePRStepIntended(st, id, stepId, req, now)
  }

  /** Complete the steps with ids `k + 1` to `n` of request `id`, one call
      each, stopping at the first failure. */
  function CompleteInOrder(st: State, id: string, k: nat, n: nat, now: Timestamp, rule: AuditRule): Reply<PR>
    decreases n - k
  {
    if k >= n then
      Reply(st, if id in st.prs then Ok(st.prs[id]) else Err(PRNotFound))
    else
      var step := StepCall(st, id, Some(k + 1), Complete, now, rule);
      if step.result.Err? then step
      else CompleteInOrder(step.next, id, k + 1, n, now, rule)
  }

  /** Completing the remaining steps in order always succeeds and ends with
      the request completed. As written, the log gains nothing; with the
      intended audit rule it gains one entry per step completed. The stored
      status matters only when no step remains, since every step update
      derives it afresh, so a status an edit set directly is no obstacle. */
  lemma {:induction false} CompleteInOrderFinishes(st: State, id: string, k: nat, n: nat, now: Timestamp, rule: AuditRule)
    requires id in st.prs && n == |st.prs[id].steps|
    requires IdsArePositions(st.prs[id].steps)
    requires CompletedBelow(st.prs[id].steps, k)
    requires k <= n
    requires k < n || StatusAgrees(st.prs[id])
    ensures var r := CompleteInOrder(st, id, k, n, now, rule);
            && r.result.Ok?
            && r.result.value.status == Completed
            && (forall j :: 0 <= j < |r.result.value.steps| ==> r.result.value.steps[j].completed)
            && (rule == AsWritten ==> r.next.log == st.log)
            && (rule == Intended ==> |r.next.log| == |st.log| + (n - k))
    decreases n - k
  {
    var pr := st.prs[id];
    if k < n {
      CompleteNext(pr, k, now);
      assert IsTarget(pr.steps, Some(k + 1), k);
      var step := StepCall(st, id, Some(k + 1), Complete, now, rule);
      var after := ApplyStepUpdate(pr, Some(k + 1), Complete, now).value;
      assert step.result == Ok(after) && step.next.prs[id] == after;
      CompleteInOrderFinishes(step.next, id, k + 1, n, now, rule);
    }
  }

  // ----------------------------------------------------------------- runs

  const Empty: State := State(map[], [])

  function NewRequest(category: Option<string>): CreateRequest {
    CreateRequest("PR-100", Some("Office chairs"), None, None, category, None)
  }

  /** Creating a request with a category yields twelve incomplete steps and
      an in-progress status; creating the same id again is rejected. */
  lemma CreateThenDuplicate()
    ensures var r := CreatePR(Empty, NewRequest(Some("IT")));
            && r.result.Ok?
            && r.result.value.status == InProgress
            && |r.result.value.steps| == 12
            && r.result.value.priority == Medium
            && CreatePR(r.next, NewRequest(Some("HR"))) == Reply(r.next, Err(DuplicateId))
  {
    var r := CreatePR(Empty, NewRequest(Some("IT")));
    assert IsCategoryName("IT") by { assert CategoryName(IT) == "IT"; }
    assert r.result.Ok?;
  }

  /** Without a category the create fails as written, and succeeds with the
      "Others" category under the intended default. */
  lemma CreateWithoutCategory()
    ensures CreatePR(Empty, NewRequest(None)) == Reply(Empty, Err(ValidationFailed))
    ensures var r := CreatePRIntended(Empty, NewRequest(None));
            r.result.Ok? && r.result.value.category == Others
  {
  }

  /** The state after "PR-100" is created with category IT. */
  function Created(): State {
    CreatePR(Empty, NewRequest(Some("IT"))).next
  }

  /** Request `id` is stored with the template steps, none completed, and
      the status a new request starts with. */
  ghost predicate FreshFromTemplate(st: State, id: string) {
    && id in st.prs
    && st.prs[id].steps == InitialSteps()
    && st.prs[id].status == InProgress
  }

  lemma CreatedFacts()
    ensures FreshFromTemplate(Created(), "PR-100")
  {
    CreateThenDuplicate();
  }

  /** Completing step 1 of a fresh request succeeds and leaves it in
      progress; then completing step 3 while step 2 is open is an order
      violation that leaves the state as it was. */
  lemma FirstStepThenOutOfOrder(st: State, id: string, t: Timestamp)
    requires FreshFromTemplate(st, id)
    ensures var r := UpdatePRStep(st, id, Some(1), Complete, t);
            && r.result.Ok?
            && r.result.value.status == InProgress
            && r.result.value.steps[0].completedAt == Some(t)
            && UpdatePRStep(r.next, id, Some(3), Complete, t) == Reply(r.next, Err(OrderViolation))
  {
    var pr := st.prs[id];
    CompleteNext(pr, 0, t);
    assert IsTarget(pr.steps, Some(1), 0);
    var r := UpdatePRStep(st, id, Some(1), Complete, t);
    var after := r.result.value;
    assert !after.steps[1].completed;
    assert IsTarget(after.steps, Some(3), 2);
  }

  /** Completing all twelve steps of a fresh request in order completes it;
      as written no "Completed Step" entry is logged, while the intended rule
      logs twelve. */
  lemma AllStepsInOrder(st: State, id: string, t: Timestamp)
    requires FreshFromTemplate(st, id)
    ensures var r := CompleteInOrder(st, id, 0, 12, t, AsWritten);
            r.result.Ok? && r.result.value.status == Completed && r.next.log == st.log
    ensures var r := CompleteInOrder(st, id, 0, 12, t, Intended);
            r.result.Ok? && |r.next.log| == |st.log| + 12
  {
    assert !st.prs[id].steps[0].completed;
    CompleteInOrderFinishes(st, id, 0, 12, t, AsWritten);
    CompleteInOrderFinishes(st, id, 0, 12, t, Intended);
  }

  /** On a request fresh from the template, reopening step 1 after steps 1
      and 2 are complete is not checked against the order rule: it succeeds
      and leaves step 2 completed, so the completed steps no longer form a
      prefix. */
  lemma ReopenEarlierStep(pr0: PR, t: Timestamp)
    requires pr0.steps == InitialSteps()
    ensures var r1 := ApplyStepUpdate(pr0, Some(1), Complete, t);
            && r1.Ok?
            && var r2 := ApplyStepUpdate(r1.value, Some(2), Complete, t);
            && r2.Ok?
            && CompletedPrefix(r2.value.steps)
            && var r3 := ApplyStepUpdate(r2.value, Some(1), StepRequest(Some(false), None), t);
            && r3.Ok?
            && !r3.value.steps[0].completed
            && r3.value.steps[1].completed
            && !CompletedPrefix(r3.value.steps)
  {
    CompleteNext(pr0, 0, t);
    var pr1 := ApplyStepUpdate(pr0, Some(1), Complete, t).value;
    CompleteNext(pr1, 1, t);
    var pr2 := ApplyStepUpdate(pr1, Some(2), Complete, t).value;
    assert IsTarget(pr2.steps, Some(1), 0);
    var pr3 := ApplyStepUpdate(pr2, Some(1), StepRequest(Some(false), None), t).value;
    assert StepApplied(pr2, 0, StepRequest(Some(false), None), t, pr3);
  }

  /** A comment-only update of a completed step keeps it completed but clears
      its completion time. */
  lemma CommentOnlyClearsCompletionTime(st: State, id: string, t: Timestamp)
    requires FreshFromTemplate(st, id)
    ensures var r := UpdatePRStep(st, id, Some(1), Complete, t);
            && r.result.Ok?
            && var r' := UpdatePRStep(r.next, id, Some(1), StepRequest(None, Some("signed")), t);
            && r'.result.Ok?
            && r'.result.value.steps[0].completed
            && r'.result.value.steps[0].completedAt == None
            && r'.result.value.steps[0].comment == "signed"
  {
    FirstStepThenOutOfOrder(st, id, t);
    var r := UpdatePRStep(st, id, Some(1), Complete, t);
    assert IsTarget(r.result.value.steps, Some(1), 0);
  }

  /** An edit may set the status directly: the stored status then disagrees
      with the steps. */
  lemma EditCanDesyncStatus()
    ensures var r := UpdatePR(Created(), "PR-100", EditRequest(None, Keep, None, None, Keep, Some("completed")));
            && r.result.Ok?
            && r.result.value.status == Completed
            && !StatusAgrees(r.result.value)
  {
    CreatedFacts();
    assert IsStatusName("completed") by { assert StatusName(Completed) == "completed"; }
    var r := UpdatePR(Created(), "PR-100", EditRequest(None, Keep, None, None, Keep, Some("completed")));
    assert !r.result.value.steps[0].completed;
  }

  /** Deleting the request removes it, and deleting it again is not found. */
  lemma DeleteTwice()
    ensures var r := DeletePR(Created(), "PR-100");
            && r.result.Ok?
            && "PR-100" !in r.next.prs
            && DeletePR(r.next, "PR-100") == Reply(r.next, Err(PRNotFound))
  {
    CreatedFacts();
  }
}

=== FILE: schema.dfy ===
/**
  The stored shape of a procurement request (PR) and of its workflow steps,
  with the enums, required fields and defaults of the document schema, and
  the validation the document store runs when a document is saved.
 */
module Schema {
  import opened Outcomes

  /** A point in time, in milliseconds since the epoch. */
  type Timestamp = int

  /** The string a request body carries for an optional text field counts as
      given only when it is present and non-empty (JavaScript truthiness). */
  predicate Truthy(o: Option<string>) {
    o.Some? && o.value != ""
  }

  /** `o || fallback` on an optional text field. */
  function OrElse(o: Option<string>, fallback: string): string {
    if Truthy(o) then o.value else fallback
  }

  // ---------------------------------------------------------------- enums

  datatype Status = InProgress | Completed

  datatype Priority = Low | Medium | High

  datatype Category =
    | FMMaintenance | RemoteAreas | Marketing | Leasing | HR | IT
    | Finance | Consultancy | Others

  /** Schema defaults of the priority and category fields. */
  const DefaultPriority: Priority := Medium
  const DefaultCategory: Category := Others

  /** Default (and create-time) assignee of every PR. */
  const DefaultAssignee: string := "Mohammad Amir Khan"

  function StatusName(s: Status): string {
    match s
    case InProgress => "in-progress"
    case Completed => "completed"
  }

  function PriorityName(p: Priority): string {
    match p
    case Low => "low"
    case Medium => "medium"
    case High => "high"
  }

  function CategoryName(c: Category): string {
    match c
    case FMMaintenance => "FM/Maintenance"
    case RemoteAreas => "Remote Areas"
    case Marketing => "Marketing"
    case Leasing => "Leasing"
    case HR => "HR"
    case IT => "IT"
    case Finance => "Finance"
    case Consultancy => "Consultancy"
    case Others => "Others"
  }

  /** The enum check of the `status` path: accepts exactly the enum names. */
  function ParseStatus(s: string): (r: Option<Status>)
    ensures r.Some? ==> StatusName(r.value) == s
    ensures forall x: Status :: StatusName(x) == s ==> r == Some(x)
  {
    if s == "in-progress" then Some(InProgress)
    else if s == "completed" then Some(Completed)
    else None
  }

  /** The enum check of the `priority` path. */
  function ParsePriority(s: string): (r: Option<Priority>)
    ensures r.Some? ==> PriorityName(r.value) == s
    ensures forall x: Priority :: PriorityName(x) == s ==> r == Some(x)
  {
    if s == "low" then Some(Low)
    else if s == "medium" then Some(Medium)
    else if s == "high" then Some(High)
    else None
  }

  /** The enum check of the `category` path. */
  function ParseCategory(s: string): (r: Option<Category>)
    ensures r.Some? ==> CategoryName(r.value) == s
    ensures forall x: Category :: CategoryName(x) == s ==> r == Some(x)
  {
    if s == "FM/Maintenance" then Some(FMMaintenance)
    else if s == "Remote Areas" then Some(RemoteAreas)
    else if s == "Marketing" then Some(Marketing)
    else if s == "Leasing" then Some(Leasing)
    else if s == "HR" then Some(HR)
    else if s == "IT" then Some(IT)
    else if s == "Finance" then Some(Finance)
    else if s == "Consultancy" then Some(Consultancy)
    else if s == "Others" then Some(Others)
    else None
  }

  ghost predicate IsStatusName(s: string) {
    exists x: Status :: StatusName(x) == s
  }

  ghost predicate IsPriorityName(s: string) {
    exists x: Priority :: PriorityName(x) == s
  }

  ghost predicate IsCategoryName(s: string) {
    exists x: Category :: CategoryName(x) == s
  }

  /** The fallback category of the create operation is not a category. */
  lemma OfficeIsNotACategory()
    ensures !IsCategoryName("Office")
    ensures ParseCategory("Office") == None
  {
  }

  // ------------------------------------------------------------ documents

  /** One workflow step. `completedAt == None` is the stored `null`. */
  datatype Step = Step(
    id: int,
    name: string,
    description: string,
    completed: bool,
    completedAt: Option<Timestamp>,
    comment: string)

  /** A step built from its required fields alone, every other field taking
      its schema default. */
  function NewStep(id: int, name: string, description: string): Step {
    Step(id, name, description, false, None, "")
  }

  /** A stored procurement request. Enum-typed fields hold only values that
      passed validation; `description` is `None` when it was never given. */
  datatype PR = PR(
    id: string,
    title: string,
    description: Option<string>,
    status: Status,
    priority: Priority,
    category: Category,
    assignee: string,
    dueDate: Option<Timestamp>,
    steps: seq<Step>)

  /** A document about to be saved: enum fields are still plain strings and
      `title` may be missing. */
  datatype Draft = Draft(
    id: string,
    title: Option<string>,
    description: Option<string>,
    status: string,
    priority: string,
    category: string,
    assignee: string,
    dueDate: Option<Timestamp>,
    steps: seq<Step>)

  /** The required string fields of a step are present and non-empty. */
  predicate StepRequiredPresent(s: Step) {
    s.name != "" && s.description != ""
  }

  /** The required fields of a stored PR and of all its steps are present. */
  predicate Wellformed(pr: PR) {
    && pr.id != ""
    && pr.title != ""
    && forall i :: 0 <= i < |pr.steps| ==> StepRequiredPresent(pr.steps[i])
  }

  /** What validation on save accepts: required fields present, enum fields
      among their enum names. */
  ghost predicate Valid(d: Draft) {
    && d.id != ""
    && Truthy(d.title)
    && IsStatusName(d.status)
    && IsPriorityName(d.priority)
    && IsCategoryName(d.category)
    && forall i :: 0 <= i < |d.steps| ==> StepRequiredPresent(d.steps[i])
  }

  /** The draft a stored PR reads back as. */
  function ToDraft(pr: PR): Draft {
    Draft(pr.id, Some(pr.title), pr.description, StatusName(pr.status),
          PriorityName(pr.priority), CategoryName(pr.category), pr.assignee,
          pr.dueDate, pr.steps)
  }

  /** Validation on save: the draft is stored iff it is valid, and what is
      stored reads back as the very draft that was saved. */
  function Validate(d: Draft): (r: Result<PR>)
    ensures r.Ok? <==> Valid(d)
    ensures r.Ok? ==> ToDraft(r.value) == d && Wellformed(r.value)
    ensures r.Err? ==> r.error == ValidationFailed
  {
    var status := ParseStatus(d.status);
    var priority := ParsePriority(d.priority);
    var category := ParseCategory(d.category);
    if d.id != "" && Truthy(d.title)
       && status.Some? && priority.Some? && category.Some?
       && forall i :: 0 <= i < |d.steps| ==> StepRequiredPresent(d.steps[i])
    then
      Ok(PR(d.id, d.title.value, d.description, status.value, priority.value,
            category.value, d.assignee, d.dueDate, d.steps))
    else
      Err(ValidationFailed)
  }

  /** Every well-formed stored PR survives a save unchanged. */
  lemma ValidateToDraft(pr: PR)
    requires Wellformed(pr)
    ensures Validate(ToDraft(pr)) == Ok(pr)
  {
  }
}

=== FILE: store.dfy ===
/**
  The request-level operations over the collection of procurement requests,
  keyed by their business id, together with the activity log they append
  to: create, edit, step update and delete.
 */
module Store {
  import opened Outcomes
  import opened Schema
  import opened Template
  import opened Workflow

  /** One audit-trail entry. */
  datatype Activity = Activity(action: string, details: string, prId: string)

  /** The stored requests by id, and the activity log, oldest entry first. */
  datatype State = State(prs: map<string, PR>, log: seq<Activity>)

  /** The state after an operation, and what the operation answers. */
  datatype Reply<+T> = Reply(next: State, result: Result<T>)

  /** The body of a create request. Absent text fields are `None`. */
  datatype CreateRequest = CreateRequest(
    id: string,
    title: Option<string>,
    description: Option<string>,
    priority: Option<string>,
    category: Option<string>,
    dueDate: Option<Timestamp>)

  /** The body of an edit request. `Truthy` text fields overwrite; `Patch`
      fields overwrite whenever they are present, even with `null`. */
  datatype EditRequest = EditRequest(
    title: Option<string>,
    description: Patch<Option<string>>,
    priority: Option<string>,
    category: Option<string>,
    dueDate: Patch<Option<Timestamp>>,
    status: Option<string>)

  /** Which condition guards the "Completed Step" entry of a step update. */
  datatype AuditRule = AsWritten | Intended

  /** Each request is stored under its own id and has its required fields. */
  ghost predicate Consistent(st: State) {
    forall k | k in st.prs :: st.prs[k].id == k && Wellformed(st.prs[k])
  }

  /** Every stored status is the one derived from its steps. */
  ghost predicate AllStatusAgree(st: State) {
    forall k | k in st.prs :: StatusAgrees(st.prs[k])
  }

  /** The category the create operation falls back to when none is given. */
  const CreateFallbackCategory: string := "Office"

  // --------------------------------------------------------------- create

  /** The document the create operation saves. */
  function NewDraft(req: CreateRequest, fallbackCategory: string): Draft {
    Draft(req.id, req.title, req.description, StatusName(InProgress),
          OrElse(req.priority, PriorityName(DefaultPriority)),
          OrElse(req.category, fallbackCategory),
          DefaultAssignee, req.dueDate, InitialSteps())
  }

  /** Create with a given fallback category: reject a taken id, otherwise
      save the new document with the initial steps and log the creation. */
  function Insert(st: State, req: CreateRequest, fallbackCategory: string): (r: Reply<PR>)
    ensures r.result == Err(DuplicateId) <==> req.id in st.prs
    ensures req.id !in st.prs && r.result.Err? ==> r.result.error == ValidationFailed
    ensures r.result.Err? ==> r.next == st
    ensures r.result.Ok? <==>
              && req.id !in st.prs
              && req.id != ""
              && Truthy(req.title)
              && (Truthy(req.priority) ==> IsPriorityName(req.priority.value))
              && IsCategoryName(OrElse(req.category, fallbackCategory))
    ensures r.result.Ok? ==>
              var pr := r.result.value;
              && r.next.prs == st.prs[req.id := pr]
              && |r.next.prs| == |st.prs| + 1
              && r.next.log == st.log + [Activity("Created PR", "PR " + req.id + ": " + req.title.value, req.id)]
              && pr.id == req.id
              && pr.title == req.title.value
              && pr.description == req.description
              && pr.status == InProgress
              && PriorityName(pr.priority) == OrElse(req.priority, PriorityName(DefaultPriority))
              && CategoryName(pr.category) == OrElse(req.category, fallbackCategory)
              && pr.assignee == DefaultAssignee
              && pr.dueDate == req.dueDate
              && pr.steps == InitialSteps()
              && StatusAgrees(pr)
    ensures Consistent(st) ==> Consistent(r.next)
    ensures AllStatusAgree(st) ==> AllStatusAgree(r.next)
  {
    if req.id in st.prs then Reply(st, Err(DuplicateId))
    else
      match Validate(NewDraft(req, fallbackCategory))
      case Err(e) => Reply(st, Err(e))
      case Ok(pr) =>
        assert !AllCompleted(pr.steps) by { assert !pr.steps[0].completed; }
        var entry := Activity("Created PR", "PR " + req.id + ": " + pr.title, req.id);
        Reply(State(st.prs[req.id := pr], st.log + [entry]), Ok(pr))
  }

  /** Create as written: without a category the fallback "Office" is not a
      category, so validation rejects the document. */
  function CreatePR(st: State, req: CreateRequest): (r: Reply<PR>)
    ensures !Truthy(req.category) ==> r.result.Err? && r.next == st
    ensures !Truthy(req.category) && req.id !in st.prs ==> r.result == Err(ValidationFailed)
    ensures r.result.Ok? <==>
              && req.id !in st.prs
              && req.id != ""
              && Truthy(req.title)
              && (Truthy(req.priority) ==> IsPriorityName(req.priority.value))
              && Truthy(req.category) && IsCategoryName(req.category.value)
    ensures r.result.Ok? ==> CategoryName(r.result.value.category) == req.category.value
  {
    OfficeIsNotACategory();
    Insert(st, req, CreateFallbackCategory)
  }

  /** Create with the schema's own default category, as evidently intended:
      a missing category no longer makes the create fail. */
  function CreatePRIntended(st: State, req: CreateRequest): (r: Reply<PR>)
    ensures r.result.Ok? <==>
              && req.id !in st.prs
              && req.id != ""
              && Truthy(req.title)
              && (Truthy(req.priority) ==> IsPriorityName(req.priority.value))
              && (Truthy(req.category) ==> IsCategoryName(req.category.value))
    ensures r.result.Ok? && !Truthy(req.category) ==> r.result.value.category == Others
  {
    Insert(st, req, CategoryName(DefaultCategory))
  }

  // ----------------------------------------------------------------- edit

  /** The stored request with the supplied fields of an edit merged in. */
  function Merge(pr: PR, req: EditRequest): Draft {
    var d := ToDraft(pr);
    d.(title := if Truthy(req.title) then req.title else d.title,
       description := if req.description.Put? then req.description.value else d.description,
       priority := OrElse(req.priority, d.priority),
       category := OrElse(req.category, d.category),
       dueDate := if req.dueDate.Put? then req.dueDate.value else d.dueDate,
       status := OrElse(req.status, d.status))
  }

  /** Edit: merge the supplied fields, save, log. The status may be set
      directly, whatever the steps say. */
  function UpdatePR(st: State, id: string, req: EditRequest): (r: Reply<PR>)
    ensures r.result == Err(PRNotFound) <==> id !in st.prs
    ensures id in st.prs && r.result.Err? ==> r.result.error == ValidationFailed
    ensures r.result.Err? ==> r.next == st
    ensures id in st.prs && Wellformed(st.prs[id]) ==>
              (r.result.Ok? <==>
                 && (Truthy(req.priority) ==> IsPriorityName(req.priority.value))
                 && (Truthy(req.category) ==> IsCategoryName(req.category.value))
                 && (Truthy(req.status) ==> IsStatusName(req.status.value)))
    ensures r.result.Ok? ==>
              var prev := st.prs[id];
              var pr := r.result.value;
              && r.next.prs == st.prs[id := pr]
              && |r.next.log| == |st.log| + 1 && r.next.log[..|st.log|] == st.log
              && r.next.log[|st.log|].action == "Updated PR" && r.next.log[|st.log|].prId == id
              && pr.id == prev.id && pr.assignee == prev.assignee && pr.steps == prev.steps
              && pr.title == (if Truthy(req.title) then req.title.value else prev.title)
              && pr.description == (if req.description.Put? then req.description.value else prev.description)
              && pr.dueDate == (if req.dueDate.Put? then req.dueDate.value else prev.dueDate)
              && (Truthy(req.priority) ==> PriorityName(pr.priority) == req.priority.value)
              && (!Truthy(req.priority) ==> pr.priority == prev.priority)
              && (Truthy(req.category) ==> CategoryName(pr.category) == req.category.value)
              && (!Truthy(req.category) ==> pr.category == prev.category)
              && (Truthy(req.status) ==> StatusName(pr.status) == req.status.value)
              && (!Truthy(req.status) ==> pr.status == prev.status)
    ensures Consistent(st) ==> Consistent(r.next)
  {
    if id !in st.prs then Reply(st, Err(PRNotFound))
    else
      var prev := st.prs[id];
      match Validate(Merge(prev, req))
      case Err(e) => Reply(st, Err(e))
      case Ok(pr) =>
        assert ToDraft(pr) == Merge(prev, req);
        var entry := Activity("Updated PR", "PR " + id + ": " + OrElse(req.title, "details updated"), id);
        Reply(State(st.prs[id := pr], st.log + [entry]), Ok(pr))
  }

  // ---------------------------------------------------------- step update

  /** The "Completed Step" entry a step update appends, if any. */
  function CompletedStepLog(id: string, req: StepRequest, before: Step, after: Step, rule: AuditRule): seq<Activity> {
    var fires := match rule
      case AsWritten => EmitsCompletedEvent(req.completed, after)
      case Intended => IntendedCompletedEvent(req.completed, before);
    if fires then [Activity("Completed Step", "PR " + id + ": " + after.name, id)] else []
  }

  /** Step update on the stored request `id`, under a given audit rule. */
  function UpdateStepWith(st: State, id: string, stepId: Option<int>, req: StepRequest, now: Timestamp, rule: AuditRule): (r: Reply<PR>)
    ensures r.result == Err(PRNotFound) <==> id !in st.prs
    ensures r.result.Err? ==> r.next == st
    ensures id in st.prs && r.result.Err? ==> r.result == ApplyStepUpdate(st.prs[id], stepId, req, now)
    ensures r.result.Ok? ==>
              && id in st.prs
              && r.result == ApplyStepUpdate(st.prs[id], stepId, req, now)
              && r.next.prs == st.prs[id := r.result.value]
              && |r.next.log| >= |st.log| && r.next.log[..|st.log|] == st.log
    ensures Consistent(st) ==> Consistent(r.next)
    ensures AllStatusAgree(st) ==> AllStatusAgree(r.next)
  {
    if id !in st.prs then Reply(st, Err(PRNotFound))
    else
      var before := st.prs[id];
      match ApplyStepUpdate(before, stepId, req, now)
      case Err(e) => Reply(st, Err(e))
      case Ok(pr) =>
        var i := FindStepIndex(before.steps, stepId.value).value;
        assert StepApplied(before, i, req, now, pr);
        var entries := CompletedStepLog(id, req, before.steps[i], pr.steps[i], rule);
        Reply(State(st.prs[id := pr], st.log + entries), Ok(pr))
  }

  /** Step update as written: the audit entry never fires, so the activity
      log is never extended by a step update. */
  function UpdatePRStep(st: State, id: string, stepId: Option<int>, req: StepRequest, now: Timestamp): (r: Reply<PR>)
    ensures r.next.log == st.log
    ensures r.result.Ok? ==> id in st.prs && r.next.prs == st.prs[id := r.result.value]
  {
    UpdateStepWith(st, id, stepId, req, now, AsWritten)
  }

  /** Step update with the intended audit condition: exactly one entry is
      appended when the call completes a previously incomplete step. */
  function UpdatePRStepIntended(st: State, id: string, stepId: Option<int>, req: StepRequest, now: Timestamp): (r: Reply<PR>)
    ensures r.result.Ok? ==>
              && id in st.prs
              && |r.result.value.steps| == |st.prs[id].steps|
              && forall i | IsTarget(st.prs[id].steps, stepId, i) ::
                r.next.log == st.log +
                     (if !st.prs[id].steps[i].completed && r.result.value.steps[i].completed
                      then [Activity("Completed Step", "PR " + id + ": " + r.result.value.steps[i].name, id)]
                      else [])
    ensures r.result.Err? ==> r.next.log == st.log
  {
    UpdateStepWith(st, id, stepId, req, now, Intended)
  }

  // --------------------------------------------------------------- delete

  /** Delete: remove the request and log it; its log entries stay. */
  function DeletePR(st: State, id: string): (r: Reply<()>)
    ensures r.result == Err(PRNotFound) <==> id !in st.prs
    ensures r.result.Err? ==> r.next == st
    ensures r.result.Ok? ==>
              && r.next.prs.Keys == st.prs.Keys - {id}
              && (forall k | k in r.next.prs :: r.next.prs[k] == st.prs[k])
              && |r.next.log| == |st.log| + 1 && r.next.log[..|st.log|] == st.log
              && r.next.log[|st.log|] == Activity("Deleted PR", "PR " + id + " was removed", id)
    ensures Consistent(st) ==> Consistent(r.next)
    ensures AllStatusAgree(st) ==> AllStatusAgree(r.next)
  {
    if id !in st.prs then Reply(st, Err(PRNotFound))
    else
      var entry := Activity("Deleted PR", "PR " + id + " was removed", id);
      Reply(State(st.prs - {id}, st.log + [entry]), Ok(()))
  }
}

=== FILE: template.dfy ===
/**
  The fixed step template every new procurement request starts from.
 */
module Template {
  import opened Outcomes
  import opened Schema

  /** Number of steps in the template. */
  const StepCount: nat := 12

  /** The approval-to-delivery workflow, in order. Each call yields a new
      value; nothing is shared between requests. */
  function InitialSteps(): (steps: seq<Step>)
    ensures |steps| == StepCount
    ensures forall i :: 0 <= i < |steps| ==> steps[i].id == i + 1
    ensures forall i :: 0 <= i < |steps| ==>
              && !steps[i].completed
              && steps[i].completedAt == None
              && steps[i].comment == ""
              && StepRequiredPresent(steps[i])
  {
    [ NewStep(1, "Request Prepared", "Draft PR details"),
      NewStep(2, "HOD Approval", "Department head approval"),
      NewStep(3, "Purchase Approval", "Purchase department review"),
      NewStep(4, "RFQ Generated", "Request for Quotation created"),
      NewStep(5, "Supplier Extracted", "Supplier list prepared"),
      NewStep(6, "RFQs Sent", "RFQs sent to suppliers"),
      NewStep(7, "Quotations Received", "Supplier quotations collected"),
      NewStep(8, "Comparison Report", "Quotation comparison prepared"),
      NewStep(9, "Comparison Approved", "Comparison approved by HOD"),
      NewStep(10, "PO Created", "Purchase Order issued"),
      NewStep(11, "Delivery Received", "Items received from supplier"),
      NewStep(12, "Delivery Verified", "Delivery verified & GRN created") ]
  }
}

=== FILE: workflow.dfy ===
/**
  The step workflow of one procurement request: locating a step, the rule
  that steps are completed in list order, the partial update of a step,
  the status derived from the steps, and the audit condition that follows
  a step update.
 */
module Workflow {
  import opened Outcomes
  import opened Schema

  /** The body of a step update: both fields are optional, and `None` is only
      the omitted field (an explicit `null` is not modelled). */
  datatype StepRequest = StepRequest(completed: Option<bool>, comment: Option<string>)

  // ----------------------------------------------------------- properties

  /** Some step carries the requested id. `stepId == None` stands for a path
      segment that does not parse as an integer, which matches no step. */
  ghost predicate HasStep(steps: seq<Step>, stepId: Option<int>) {
    stepId.Some? && exists j :: 0 <= j < |steps| && steps[j].id == stepId.value
  }

  /** Position `i` is the first step carrying the requested id. */
  ghost predicate IsTarget(steps: seq<Step>, stepId: Option<int>, i: int) {
    && stepId.Some?
    && 0 <= i < |steps|
    && steps[i].id == stepId.value
    && forall j :: 0 <= j < i ==> steps[j].id != stepId.value
  }

  /** Every step before position `i` is completed. */
  ghost predicate EarlierCompleted(steps: seq<Step>, i: int) {
    forall j :: 0 <= j < i && j < |steps| ==> steps[j].completed
  }

  /** The completed steps form a prefix of the step list. */
  ghost predicate CompletedPrefix(steps: seq<Step>) {
    forall i, j :: 0 <= i < j < |steps| && steps[j].completed ==> steps[i].completed
  }

  /** The stored status is the one derived from the steps. */
  ghost predicate StatusAgrees(pr: PR) {
    pr.status == Completed <==> forall j :: 0 <= j < |pr.steps| ==> pr.steps[j].completed
  }

  /** An incomplete step carries no completion time. */
  ghost predicate TimestampsConsistent(steps: seq<Step>) {
    forall j :: 0 <= j < |steps| && !steps[j].completed ==> steps[j].completedAt == None
  }

  /** `after` is `before` with step `i` updated by `req` at time `now` and
      nothing else changed but the status. */
  ghost predicate StepApplied(before: PR, i: int, req: StepRequest, now: Timestamp, after: PR)
    requires 0 <= i < |before.steps|
  {
    var s := before.steps[i];
    && |after.steps| == |before.steps|
    && after == before.(steps := after.steps, status := after.status)
    && (forall j :: 0 <= j < |before.steps| && j != i ==> after.steps[j] == before.steps[j])
    && var s' := after.steps[i];
    && s'.id == s.id && s'.name == s.name && s'.description == s.description
    && (req.completed.None? ==> s'.completed == s.completed)
    && (req.completed.Some? ==> s'.completed == req.completed.value)
    && (req.comment.None? ==> s'.comment == s.comment)
    && (req.comment.Some? ==> s'.comment == req.comment.value)
    && (s'.completedAt.Some? <==> req.completed == Some(true))
    && (req.completed == Some(true) ==> s'.completedAt == Some(now))
  }

  // ----------------------------------------------------------- operations

  /** The position of the first step with the given id, as `findIndex`. */
  function FindStepIndex(steps: seq<Step>, stepId: int): (r: Option<nat>)
    ensures r.Some? ==> IsTarget(steps, Some(stepId), r.value)
    ensures r.None? ==> forall j :: 0 <= j < |steps| ==> steps[j].id != stepId
    decreases |steps|
  {
    if |steps| == 0 then None
    else if steps[0].id == stepId then Some(0)
    else
      match FindStepIndex(steps[1..], stepId)
      case None => None
      case Some(k) => Some(k + 1)
  }

  /** `every(s => s.completed)` over a step list. */
  function AllCompleted(steps: seq<Step>): (r: bool)
    ensures r <==> forall j :: 0 <= j < |steps| ==> steps[j].completed
    decreases |steps|
  {
    |steps| == 0 || (steps[0].completed && AllCompleted(steps[1..]))
  }

  /** The status a request has once its steps are as given. */
  function DeriveStatus(steps: seq<Step>): Status {
    if AllCompleted(steps) then Completed else InProgress
  }

  /** The partial update of one step: `completed` and `comment` keep their
      values when omitted, while the completion time is rebuilt from the
      request alone. */
  function UpdatedStep(s: Step, req: StepRequest, now: Timestamp): Step {
    s.(completed := req.completed.GetOr(s.completed),
       comment := req.comment.GetOr(s.comment),
       completedAt := if req.completed == Some(true) then Some(now) else None)
  }

  /** A step update on a loaded request: find the step, check the order
      rule when completing, update the step, derive the status. */
  function ApplyStepUpdate(pr: PR, stepId: Option<int>, req: StepRequest, now: Timestamp): (r: Result<PR>)
    ensures r.Err? ==> r.error == StepNotFound || r.error == OrderViolation
    ensures r == Err(StepNotFound) <==> !HasStep(pr.steps, stepId)
    ensures req.completed != Some(true) ==> r.Ok? || r == Err(StepNotFound)
    ensures forall i | IsTarget(pr.steps, stepId, i) ::
              r == Err(OrderViolation) <==>
                req.completed == Some(true) && exists j :: 0 <= j < i && !pr.steps[j].completed
    ensures forall i | IsTarget(pr.steps, stepId, i) ::
              r.Ok? ==> StepApplied(pr, i, req, now, r.value)
    ensures r.Ok? ==> StatusAgrees(r.value)
  {
    if stepId.None? then Err(StepNotFound)
    else
      match FindStepIndex(pr.steps, stepId.value)
      case None => Err(StepNotFound)
      case Some(i) =>
        if req.completed == Some(true) && i > 0 && !AllCompleted(pr.steps[..i]) then
          Err(OrderViolation)
        else
          var steps := pr.steps[i := UpdatedStep(pr.steps[i], req, now)];
          Ok(pr.(steps := steps, status := DeriveStatus(steps)))
  }

  // ---------------------------------------------------------------- audit

  /** The "Completed Step" condition as the controller evaluates it: the
      requested value is compared with the step after the step was already
      overwritten with it. */
  function EmitsCompletedEvent(completed: Option<bool>, after: Step): bool {
    completed == Some(true) && !after.completed
  }

  /** The condition the audit entry evidently intends: the request completes
      a step that was incomplete before the call. */
  function IntendedCompletedEvent(completed: Option<bool>, before: Step): bool {
    completed == Some(true) && !before.completed
  }

  /** After any successful step update, the written condition is false: the
      "Completed Step" entry is never recorded. */
  lemma CompletedEventIsDead(pr: PR, stepId: Option<int>, req: StepRequest, now: Timestamp, i: int)
    requires IsTarget(pr.steps, stepId, i)
    requires ApplyStepUpdate(pr, stepId, req, now).Ok?
    ensures !EmitsCompletedEvent(req.completed, ApplyStepUpdate(pr, stepId, req, now).value.steps[i])
  {
  }

  /** The intended condition fires exactly when the call turns an incomplete
      step into a completed one. */
  lemma IntendedEventIffNewlyCompleted(pr: PR, stepId: Option<int>, req: StepRequest, now: Timestamp, i: int)
    requires IsTarget(pr.steps, stepId, i)
    requires ApplyStepUpdate(pr, stepId, req, now).Ok?
    ensures IntendedCompletedEvent(req.completed, pr.steps[i]) <==>
              !pr.steps[i].completed && ApplyStepUpdate(pr, stepId, req, now).value.steps[i].completed
  {
  }

  // --------------------------------------------------------------- lemmas

  /** Completing a step, or updating only its comment, keeps the completed
      steps a prefix of the list. */
  lemma CompletionKeepsPrefix(pr: PR, stepId: Option<int>, req: StepRequest, now: Timestamp)
    requires CompletedPrefix(pr.steps)
    requires req.completed != Some(false)
    requires ApplyStepUpdate(pr, stepId, req, now).Ok?
    ensures CompletedPrefix(ApplyStepUpdate(pr, stepId, req, now).value.steps)
  {
    var i := FindStepIndex(pr.steps, stepId.value).value;
    var after := ApplyStepUpdate(pr, stepId, req, now).value;
    assert StepApplied(pr, i, req, now, after);
    forall a, b | 0 <= a < b < |after.steps| && after.steps[b].completed
      ensures after.steps[a].completed
    {
      if b == i && req.completed == Some(true) {
        assert EarlierCompleted(pr.steps, i);
      }
    }
  }

  /** No successful step update leaves an incomplete step with a completion
      time. */
  lemma UpdateKeepsTimestampsConsistent(pr: PR, stepId: Option<int>, req: StepRequest, now: Timestamp)
    requires TimestampsConsistent(pr.steps)
    requires ApplyStepUpdate(pr, stepId, req, now).Ok?
    ensures TimestampsConsistent(ApplyStepUpdate(pr, stepId, req, now).value.steps)
  {
    var i := FindStepIndex(pr.steps, stepId.value).value;
    assert StepApplied(pr, i, req, now, ApplyStepUpdate(pr, stepId, req, now).value);
  }

  /** Repeating a successful step update at the same time changes nothing;
      in particular a repeated completion passes the order rule again. */
  lemma StepUpdateIdempotent(pr: PR, stepId: Option<int>, req: StepRequest, now: Timestamp)
    requires ApplyStepUpdate(pr, stepId, req, now).Ok?
    ensures var once := ApplyStepUpdate(pr, stepId, req, now).value;
            ApplyStepUpdate(once, stepId, req, now) == Ok(once)
  {
    var i := FindStepIndex(pr.steps, stepId.value).value;
    var once := ApplyStepUpdate(pr, stepId, req, now).value;
    assert StepApplied(pr, i, req, now, once);
    assert IsTarget(once.steps, stepId, i);
    var twice := ApplyStepUpdate(once, stepId, req, now);
    assert twice.Ok? by {
      if req.completed == Some(true) {
        assert forall j :: 0 <= j < i ==> once.steps[j] == pr.steps[j];
      }
    }
    assert StepApplied(once, i, req, now, twice.value);
    assert twice.value.steps == once.steps;
  }

  /** With the intended audit condition, repeating a completion records no
      second entry. */
  lemma IntendedEventNotRepeated(pr: PR, stepId: Option<int>, now: Timestamp, i: int)
    requires IsTarget(pr.steps, stepId, i)
    requires ApplyStepUpdate(pr, stepId, StepRequest(Some(true), None), now).Ok?
    ensures var once := ApplyStepUpdate(pr, stepId, StepRequest(Some(true), None), now).value;
            !IntendedCompletedEvent(Some(true), once.steps[i])
  {
  }

  // ---------------------------------------------------- in-order progress

  /** The request body that completes a step without touching its comment. */
  const Complete: StepRequest := StepRequest(Some(true), None)

  /** Step ids are the positions counted from one, as in the template. */
  ghost predicate IdsArePositions(steps: seq<Step>) {
    forall j :: 0 <= j < |steps| ==> steps[j].id == j + 1
  }

  /** Exactly the steps before position `k` are completed. */
  ghost predicate CompletedBelow(steps: seq<Step>, k: int) {
    forall j :: 0 <= j < |steps| ==> (steps[j].completed <==> j < k)
  }

  /** When the first `k` steps are completed, completing step `k + 1`
      succeeds and extends the completed prefix by one. */
  lemma CompleteNext(pr: PR, k: nat, now: Timestamp)
    requires IdsArePositions(pr.steps)
    requires CompletedBelow(pr.steps, k)
    requires k < |pr.steps|
    ensures ApplyStepUpdate(pr, Some(k + 1), Complete, now).Ok?
    ensures var after := ApplyStepUpdate(pr, Some(k + 1), Complete, now).value;
            && |after.steps| == |pr.steps|
            && IdsArePositions(after.steps)
            && CompletedBelow(after.steps, k + 1)
  {
    assert IsTarget(pr.steps, Some(k + 1), k);
    assert !exists j :: 0 <= j < k && !pr.steps[j].completed;
    var after := ApplyStepUpdate(pr, Some(k + 1), Complete, now);
    assert StepApplied(pr, k, Complete, now, after.value);
  }
}
